=== FILE: README.md ===
# CustomString in Dafny

A verified model of `CustomString<T>`, a growable, null-terminated string
buffer. It is instantiated here at `T = char`. The model covers:

- the capacity growth policy (`CalculateNewCapacity`, `Reallocate`);
- the mutators: the three `Assign` overloads, `Append`, both `operator+=` and
  the in-place `ToUpper` / `ToLower`;
- the queries: both `operator==`, `operator[]`, `Data()`, `Substring` and
  `CountRawString`;
- the default, fill and raw-string constructors;
- copy and move, both construction and assignment.

The state is the value `Str(buf, size, cursor)`:

- `buf` is the allocation `m_pHead..m_pTail`, so `|buf|` is `Capacity()`;
- `size` is `m_Size`;
- `cursor` is `m_pCurrentEnd` as an offset from `m_pHead`.

The null state is `Str([], 0, 0)`: nothing allocated, as after
value-initialisation (`CustomString<char> s{}`) or a move. Every member is a pure function from the old state to
the new one. `const T*` arguments are the sequence of units from the pointer
onward.

Modules:

- `Units`: the terminator, the ASCII case maps and the scan to the first terminator.
- `Outcomes`: `Option`, and `Outcome`, a value or the fault at which C++
  behaviour becomes undefined.
- `RawString`: raw strings and `CountRawString`.
- `Growth`: `MaxSize()` and `CalculateNewCapacity`.
- `CustomString`: the state, its invariant, `Reallocate`, the mutators,
  the constructors, copy and move.
- `Queries`: `Data()`, both `operator==`, `operator[]`, `ToUpper`/`ToLower`
  and `Substring`.
- `AsWritten`: the members whose code, as written, leaves defined behaviour or
  breaks the invariant. Each is modelled exactly as written, next to an input
  that shows the problem and a proof that the corrected member fixes it.
- `Scenarios`: the expectations of the repository's test cases
  (`CustomString/main.cpp`), stated on the model.

The representation invariant `Valid` has four parts:

- when the cursor is at 0, nothing is held;
- otherwise the cursor sits one past a terminator written at offset `Size()`;
- an allocated buffer holds a terminator at offset `Size()`;
- everything fits a 64-bit `size_t`.

The plainer invariant "Size() 0 implies cursor 0" does not hold of the code:
`CustomString<char>{'L', 0}` allocates one unit, writes a terminator and
leaves Size() 0 with the cursor at 1. `Valid` allows that state, and every
corrected member preserves `Valid`.

Two behaviours of the code are reproduced as they are, although a description
of the class as a string type would suggest otherwise:

- `Assign(c, count)` adds `count` to `Size()` instead of resetting it
  (CustomString/CustomString/CustomString.h:242).
- Both raw-string `Assign` overloads also carry on after the current content
  (CustomString/CustomString/CustomString.h:264-269). They do not replace it.
  `CustomString.AssignActsAsAppend` proves it for the corrected members on a
  valid string. `CustomString.AssignRawAll` equals `CustomString.AppendRaw`
  exactly. `CustomString.AssignFill` leaves the same Size() and content as
  `CustomString.Append`, but its reallocation test reaches one unit less, so
  the capacities may differ. The code's own raw-string `Assign` breaks the
  invariant on a non-empty string (`AsWritten.AssignRawAsWritten`).

## Model

| member | source | states |
|---|---|---|
| Units.Convert | CustomString/CustomString/CustomString.h:426-443 | after ToUpper no unit is a lower-case letter and after ToLower no unit is an upper-case letter; non-letters are kept; the terminator stays the terminator |
| Units.ConvertRoundTrip | CustomString/CustomString/CustomString.h:419-449 | ToLower undoes ToUpper on a lower-case letter, and ToUpper undoes ToLower on an upper-case letter |
| Units.ConvertUntilNul | CustomString/CustomString/CustomString.h:424-430 | the conversion loop converts every unit before the first terminator and leaves the terminator and everything after it untouched |
| Units.ConvertUntilNulIdempotent | CustomString/CustomString/CustomString.h:419-449 | converting a buffer twice to the same case gives the same buffer as converting it once |
| Units.LowerAfterUpperUntilNul | CustomString/CustomString/CustomString.h:419-449 | lowering an upper-cased buffer gives the same as lowering it directly |
| RawString.CountRawString | CustomString/CustomString/CustomString.h:573-587 | the count is the index of the first terminator plus one: every earlier unit is not a terminator and the last counted one is |
| Growth.NewCapacity | CustomString/CustomString/CustomString.h:524-544 | the new capacity is at least the old capacity and at least `min`, and never above MaxSize() |
| Growth.NewCapacityIsClampedGrowth | CustomString/CustomString/CustomString.h:524-544 | the new capacity is the larger of `min` and 1.5 times the old capacity, capped at MaxSize() |
| Growth.NewCapacityExactFit | CustomString/CustomString/CustomString.h:537-541 | a result larger than 1.5 times the old capacity is exactly `min` |
| Growth.NewCapacityMonotone | CustomString/CustomString/CustomString.h:524-544 | asking for a larger minimum never gives a smaller capacity |
| Growth.GrowStepsLowerBound | CustomString/CustomString/CustomString.h:530-543 | growth speeds up with the capacity: k steps that each need one more unit add at least k times half the starting capacity, or reach MaxSize() |
| Growth.GrowStepsNeverStalls | CustomString/CustomString/CustomString.h:530-543 | growth never stalls, even from capacity 0 or 1: k steps that each need one more unit add at least k units, or reach MaxSize() |
| CustomString.TextOfValid | CustomString/CustomString/CustomString.h:366-413 | a scan from Data() of a valid string stops within its Size() units, and reads exactly those units when none is a terminator |
| CustomString.PutUnits | CustomString/CustomString/CustomString.h:280-290 | backing up over the terminator, writing units and terminating again keeps the capacity, keeps the invariant, and makes the content the old content followed by the units; on a valid string the cursor ends one past the new terminator (at Size() + 1) |
| CustomString.Reallocate | CustomString/CustomString/CustomString.h:499-522 | the buffer grows to NewCapacity(min), never shrinks, keeps Size() and the first Size() units, zero-fills the rest, and puts the cursor after the terminator (at 0 when Size() is 0) |
| CustomString.Reserve | CustomString/CustomString/CustomString.h:277-278 | the reallocation test of every mutator: the string is kept exactly when the write fits (the buffer is non-empty and cursor + reach is below the capacity); otherwise it is exactly Reallocate(min), which holds at least `min` units; the content is kept either way |
| CustomString.AssignFill | CustomString/CustomString/CustomString.h:228-245 | Assign(c, count) keeps the invariant, adds `count` to Size(), and leaves the old content followed by `count` copies of `c`, and the cursor ends one past the new terminator (at Size() + 1) |
| CustomString.Append | CustomString/CustomString/CustomString.h:274-291 | Size() grows by `count`, the old prefix is kept, `count` copies of `c` follow it with a terminator after them, and the invariant is kept; on a valid string the cursor ends one past the new terminator (at Size() + 1) |
| CustomString.AppendRaw | CustomString/CustomString/CustomString.h:293-311 | operator+=(pStr) makes the content the old content followed by the raw string's units up to its terminator, and Size() grows by their number, and the cursor ends one past the new terminator (at Size() + 1) |
| CustomString.AppendString | CustomString/CustomString/CustomString.h:313-332 | operator+=(other) makes the content the old content followed by the other string's Size() units, Size() becomes the sum, and the result is terminated and valid, and the cursor ends one past the new terminator (at Size() + 1) |
| CustomString.AssignRaw | CustomString/CustomString/CustomString.h:255-272 | Assign(pStr, count) appends count - 1 units when pStr[count - 1] is a terminator and `count` units otherwise, and keeps the invariant, and the cursor ends one past the new terminator (at Size() + 1) |
| CustomString.AssignRawAll | CustomString/CustomString/CustomString.h:247-253 | Assign(pStr) appends the raw string's units up to its terminator, and the cursor ends one past the new terminator (at Size() + 1) |
| CustomString.AssignActsAsAppend | CustomString/CustomString/CustomString.h:228-272 | for the corrected members on a valid string: Assign(c, count) leaves the same Size() and content as Append(c, count), and Assign(pStr) gives exactly the state operator+=(pStr) gives |
| CustomString.Fill | CustomString/CustomString/CustomString.h:109-117 | the fill constructor holds exactly `count` copies of `c`, has capacity count + 1, and is terminated at Size(), and the cursor ends one past the new terminator (at Size() + 1) |
| CustomString.FromRaw | CustomString/CustomString/CustomString.h:119-127 | constructing from a raw string of counted length L gives Size() L - 1, Capacity() L, the raw string's units as content and a terminator at Size(), and the cursor ends one past the new terminator (at Size() + 1) |
| CustomString.Copy | CustomString/CustomString/CustomString.h:142-159 | a copy has the source's capacity, Size() and content, reads the same text from Data(), and is valid |
| CustomString.CopyAssign | CustomString/CustomString/CustomString.h:174-200 | after copy assignment the target has the source's capacity, Size() and content, self-assignment included; the result is valid, so the cursor is one past the terminator, where line 196 puts it on the terminator |
| CustomString.MoveConstruct | CustomString/CustomString/CustomString.h:161-172 | the new string is the source, and the source is left with no buffer and Size() 0 |
| CustomString.MoveAssign | CustomString/CustomString/CustomString.h:202-222 | the target becomes the source, whatever it held before, and the source is left with no buffer and Size() 0; on self-move (`a = std::move(a)`) the buffer is released and the string is left in the null state |
| Queries.Data | CustomString/CustomString/CustomString.h:356-360 | Data() is null exactly when nothing is allocated; otherwise it starts with the content and has a terminator at Size() |
| Queries.ScanVerdict | CustomString/CustomString/CustomString.h:378-390 | where the comparison loop stops, comparing the two current units decides whether the texts up to the first terminator are equal |
| Queries.Equals | CustomString/CustomString/CustomString.h:366-391 | operator==(other) is true exactly when the sizes agree and the units agree up to the first terminator; two unallocated strings are equal |
| Queries.EqualsRaw | CustomString/CustomString/CustomString.h:393-413 | operator==(pStr) is true exactly when Size() + 1 is the raw string's counted length and the units agree up to the first terminator |
| Queries.SameTextReflexive | CustomString/CustomString/CustomString.h:366-391 | every string equals itself |
| Queries.SameTextSymmetric | CustomString/CustomString/CustomString.h:366-391 | a equals b exactly when b equals a |
| Queries.SameTextIsContentEquality | CustomString/CustomString/CustomString.h:366-391 | for contents without an embedded terminator, operator== is equality of the contents |
| Queries.FromRawEqualsSource | CustomString/CustomString/CustomString.h:393-413 | a string constructed from a raw string compares equal to that raw string |
| Queries.CopyEqualsSource | CustomString/CustomString/CustomString.h:142-159 | a copy compares equal to its source |
| Queries.Put | CustomString/CustomString/CustomString.h:455-461 | a write through operator[] changes exactly the unit at `index` of the content and keeps Size(), Capacity() and the invariant |
| Queries.PutThenAt | CustomString/CustomString/CustomString.h:455-469 | reading through operator[] after a write sees the written unit at that index and the old unit everywhere else |
| Queries.Recase | CustomString/CustomString/CustomString.h:419-449 | the conversion keeps Size(), Capacity(), the cursor and the invariant, converts each unit of the text and leaves the rest of the buffer alone |
| Queries.ToUpper | CustomString/CustomString/CustomString.h:419-433 | ToUpper converts the text unit by unit, so that no lower-case letter is left, and keeps Size(), Capacity(), the cursor and the rest of the buffer |
| Queries.ToLower | CustomString/CustomString/CustomString.h:435-449 | ToLower converts the text unit by unit, so that no upper-case letter is left, and keeps Size(), Capacity(), the cursor and the rest of the buffer |
| Queries.ToUpperChangesOnlyLowerLetters | CustomString/CustomString/CustomString.h:424-430 | ToUpper changes a unit of the buffer exactly when it is a lower-case letter before the first terminator |
| Queries.ToLowerChangesOnlyUpperLetters | CustomString/CustomString/CustomString.h:440-446 | ToLower changes a unit of the buffer exactly when it is an upper-case letter before the first terminator |
| Queries.ToUpperIdempotent | CustomString/CustomString/CustomString.h:419-433 | ToUpper twice is ToUpper once |
| Queries.ToLowerAfterToUpper | CustomString/CustomString/CustomString.h:419-449 | ToLower after ToUpper is ToLower |
| Queries.ToUpperContent | CustomString/CustomString/CustomString.h:419-433 | for content without an embedded terminator ToUpper converts all Size() units and adds no terminator |
| Queries.SubstringLength | CustomString/CustomString/CustomString.h:481-488 | the loop accepts at most `count` units, stops at Size() and at an embedded terminator, and stops only for one of those reasons |
| Queries.Substring | CustomString/CustomString/CustomString.h:475-493 | the result is a valid string holding the accepted units starting at `start` and no terminator |
| Queries.SubstringWhole | CustomString/CustomString/CustomString.h:475-493 | Substring from 0 with an unbounded count of a terminator-free string is an equal copy |
| AsWritten.AssignFillAsWritten | CustomString/CustomString/CustomString.h:228-245 | Assign(c, count) as written overflows the buffer exactly when it must reallocate and NewCapacity(count + 1) cannot hold the old units as well; otherwise it appends like AssignFill |
| AsWritten.AssignFillAsWrittenOnEmptyString | CustomString/CustomString/CustomString.h:109-117 | on an empty string, the fill constructor's only use, the code as written agrees with the corrected Assign |
| AsWritten.AssignFillOverflows | CustomString/CustomString/CustomString.h:231-238 | `"ab"` followed by Assign('x', 10) writes past the buffer |
| AsWritten.AssignRawAsWritten | CustomString/CustomString/CustomString.h:255-272 | Assign(pStr, count) as written, run on a non-empty string, leaves the invariant broken whenever it finishes |
| AsWritten.CopiedCount | CustomString/CustomString/CustomString.h:258-264 | the count test reads out of the raw string exactly when count is 0 at its start or the copy would run past it; otherwise one more unit is copied when pStr[count - 1] is not a terminator |
| AsWritten.CopyCounted | CustomString/CustomString/CustomString.h:261-269 | the reallocation for just the copied units and the copy at the cursor: the write fails exactly when the units do not fit after the cursor, and on a non-empty string it breaks the invariant |
| AsWritten.CopyAtCursor | CustomString/CustomString/CustomString.h:264-269 | copying at the cursor moves the cursor by the number of units, adds one less to Size(), and on a non-empty string breaks the invariant |
| AsWritten.SizeStep | CustomString/CustomString/CustomString.h:269 | `m_Size += count - 1` in size_t arithmetic subtracts one, and wraps around when count is 0 |
| AsWritten.AssignRawAsWrittenOnFreshString | CustomString/CustomString/CustomString.h:119-127 | on a string that has written nothing, as in the raw-string constructor, the code as written agrees with the corrected Assign |
| AsWritten.AssignRawOverflows | CustomString/CustomString/CustomString.h:261-264 | `"ab"` followed by Assign("cd") copies three units to offset 3 of a four-unit buffer |
| AsWritten.SubstringAsWritten | CustomString/CustomString/CustomString.h:475-493 | Substring as written, when no unit is accepted at offset 0, reads before the buffer |
| AsWritten.SubstringAsWrittenAgrees | CustomString/CustomString/CustomString.h:475-493 | when at least one unit is accepted, Substring as written agrees with the corrected Substring |
| AsWritten.SubstringEmptyReadsBefore | CustomString/CustomString/CustomString.h:490 | `"Hello"`.Substring(0, 0) reads the unit before the buffer |
| AsWritten.EqualsAsWritten | CustomString/CustomString/CustomString.h:366-391 | operator==(other) as written dereferences null exactly when the sizes agree and only one side is allocated; otherwise it decides like Equals |
| AsWritten.EqualsNullDereference | CustomString/CustomString/CustomString.h:372-378 | `{'L', 0} == {}` dereferences null, although both strings are empty |
| AsWritten.EqualsRawAsWritten | CustomString/CustomString/CustomString.h:393-413 | operator==(pStr) as written dereferences null exactly when nothing is allocated and the raw string is empty; otherwise it decides like EqualsRaw |
| AsWritten.EqualsRawNullDereference | CustomString/CustomString/CustomString.h:396-400 | a value-initialised (`{}`) string compared with `""` dereferences null, although both are empty |
| AsWritten.CopyAsWritten | CustomString/CustomString/CustomString.h:142-159 | the copy as written keeps capacity, Size() and content but leaves the cursor on the terminator, which breaks the invariant for a non-empty source |
| AsWritten.CopyThenAppendLosesUnit | CustomString/CustomString/CustomString.h:157 | copying an appended-to `"ab"` and appending zero units leaves `"a"` and a terminator in Size() 2 |
| AsWritten.CopyThenAppendKeepsUnits | CustomString/CustomString/CustomString.h:274-291 | with the corrected copy, appending to a copy gives the source's content followed by the appended units |
| AsWritten.CopyAssignAsWritten | CustomString/CustomString/CustomString.h:174-200 | copy assignment as written: on self-assignment the buffer is gone while Size() is kept, which breaks soundness for a non-empty string; otherwise it is the copy as written |
| AsWritten.CopyAssignThenAppendLosesUnit | CustomString/CustomString/CustomString.h:196 | assigning an appended-to `"ab"` to another string and appending zero units leaves `"a"` and a terminator in Size() 2, as the copy constructor does |
| AsWritten.CopyAssignThenAppendKeepsUnits | CustomString/CustomString/CustomString.h:274-291 | with the corrected copy assignment, appending to the target gives the source's content followed by the appended units |
| AsWritten.SelfCopyAssignLosesBuffer | CustomString/CustomString/CustomString.h:177-188 | `a = a` on `"ab"` leaves Size() 2 with no buffer |
| AsWritten.SelfCopyAssignKeepsString | CustomString/CustomString/CustomString.h:174-200 | with the corrected copy assignment, `a = a` leaves the string as it was |
| Scenarios.DefaultConstructed | CustomString/main.cpp:30-38 | a value-initialised string (`String string{}`) has Size() 0, Capacity() 0 and a null Data() |
| Scenarios.FillSeven | CustomString/main.cpp:40-52 | `{'L', 7}` has Size() 7, a non-null Data(), equals "LLLLLLL", has 'L' at indices 0 and 6 and is terminated |
| Scenarios.FromHelloWorld | CustomString/main.cpp:54-63 | `{"Hello World!"}` has Size() 12, Capacity() at least 12, a non-null Data() and is terminated |
| Scenarios.CopyOfHelloWorld | CustomString/main.cpp:65-78 | the copy of "Hello World!" has the same Size() and Capacity(), equals the original and the literal, and both are terminated |
| Scenarios.CompareAgainstRaw | CustomString/main.cpp:80-88 | "Hello World!" equals its literal and differs from "Hello_World!", a longer literal and "" |
| Scenarios.CompareAgainstOther | CustomString/main.cpp:90-107 | "Hello World!", "Hello!" and the default string each equal themselves and differ from the other two |
| Scenarios.ToUpperOfHelloWorld | CustomString/main.cpp:109-126 | ToUpper of "Hello World!" equals "HELLO WORLD!", and so does its copy, with the same Size() and Capacity(); "THIS_IS_A_TEST!" is unchanged; all three are terminated |
| Scenarios.ToLowerOfHelloWorld | CustomString/main.cpp:128-145 | ToLower of "Hello World!" equals "hello world!", and so does its copy, with the same Size() and Capacity(); "this_is_a_test!" is unchanged; all three are terminated |
| Scenarios.AppendToHelloWorld | CustomString/CustomString/CustomString.h:274-291 | Append('x', 5) on "Hello World!" gives "Hello World!xxxxx" with Size() 17, terminated |
| Scenarios.SubstringOfHelloWorld | CustomString/CustomString/CustomString.h:475-493 | Substring(6) of "Hello World!", with the default count, is "World!" |

## Left out

- Release, DeleteData and the destructor (CustomString/CustomString/CustomString.h:129-136, 546-567). Buffers are values, so there is nothing to free and no element destructor to run.
- Plain default-initialisation (`CustomString<char> s;`). `CustomString() = default;` (CustomString/CustomString/CustomString.h:21) has no member initialisers (CustomString/CustomString/CustomString.h:101-104), so only value-initialisation with `{}` zeroes the four members. Without `{}` they are indeterminate and every later member call reads them, which no value of the model represents.
- Pointer identity. The tests' `Data() != other.Data()` is about addresses. A value model has no addresses, so a copy is stated as equal capacity, size and content.
- Null `const T*` arguments. A raw string is a sequence of units, so a null pointer cannot be written down, and `assert(pStr != nullptr)` holds by construction.
- Aliasing. The model does not cover a raw argument that points into the string's own buffer.
- `assert(...)` checks in operator[] and Substring. They become `requires` clauses.
- `noexcept`, and allocation failure of `new[]`.
- MaxSize() is fixed at 2^64 - 1, the value for a 64-bit `size_t`.
- `T` is fixed to `char`. `memcpy` counts bytes, and one byte is one unit only for `char`.
- `Size()` and `MaxSize()` have no member of their own: they are the `size` field and `MAX_SIZE`. `Capacity()` is `CustomString.Capacity`.
- Queries.At: the const `operator[]` carries no contract of its own. What it reads is stated by Queries.PutThenAt and in Scenarios.FillSeven.
- CustomString.AssignFill, CustomString.Append, CustomString.AppendRaw, CustomString.AppendString, CustomString.AssignRaw, CustomString.AssignRawAll, CustomString.Fill, CustomString.FromRaw: the preconditions rule out wrap-around. CustomString.AssignRawAll keeps the one-unit margin of AssignRaw's `count + 1` branch, which a counted length never takes. In the source, `m_Size` and the pointer arithmetic would wrap around past `size_t`; here the resulting size must stay within MaxSize().
- AsWritten.AssignRawAsWritten: the contract states only the broken invariant on a non-empty string and the agreement on a fresh one (AsWritten.AssignRawAsWrittenOnFreshString). It does not state the full content after a successful copy.
- AsWritten.SubstringAsWritten: the contract states the read before the buffer only for offset 0. For a later offset the code reads the unit before `start`, and the outcome depends on that unit.
- Growth.GrowStepsLowerBound, Growth.GrowStepsNeverStalls: the bounds are stated for growth steps that each need one more unit than the current capacity. They are not stated for arbitrary mutation sequences.

## Findings

| source | as written | input that shows it | evidently intended | confidence | as-written member | corrected member |
|---|---|---|---|---|---|---|
| CustomString/CustomString/CustomString.h:231-232 | Assign(c, count) reallocates to hold count + 1 units, then writes after the Size() units already held | `CustomString<char> s{"ab"}; s.Assign('x', 10);` reallocates to 11 units and writes 13 | reallocate for Size() + count + 1 units, as Append does | high, not executed | AsWritten.AssignFillAsWritten, AsWritten.AssignFillOverflows | CustomString.AssignFill |
| CustomString/CustomString/CustomString.h:261-264 | Assign(pStr, count) copies from the cursor, which is past the current terminator, and reallocates for `count` units only | `CustomString<char> s{"ab"}; s.Assign("cd");` copies 3 units to offset 3 of a 4-unit buffer | write over the terminator and reallocate for Size() + count units, as operator+=(pStr) does | high, not executed | AsWritten.AssignRawAsWritten, AsWritten.AssignRawOverflows | CustomString.AssignRaw |
| CustomString/CustomString/CustomString.h:490 | Substring passes the accepted count to Assign(pStr, count) even when it is 0, and Assign then reads pStr[-1] | `CustomString<char>{"Hello"}.Substring(0, 0)` | return the empty string | high, not executed | AsWritten.SubstringAsWritten, AsWritten.SubstringEmptyReadsBefore | Queries.Substring |
| CustomString/CustomString/CustomString.h:375-378 | operator==(other) returns early only when both buffers are null, and otherwise dereferences both | `CustomString<char>{'L', 0} == CustomString<char>{}` | two empty strings compare equal | high, not executed | AsWritten.EqualsAsWritten, AsWritten.EqualsNullDereference | Queries.Equals |
| CustomString/CustomString/CustomString.h:399-400 | operator==(pStr) dereferences the buffer of a string that never allocated | `CustomString<char>{} == ""` | the empty string equals "" | high, not executed | AsWritten.EqualsRawAsWritten, AsWritten.EqualsRawNullDereference | Queries.EqualsRaw |
| CustomString/CustomString/CustomString.h:157 | the copy constructor leaves the cursor on the terminator (`m_pHead + size`), whereas the constructors from a fill or a raw string and every mutator leave it one past; copy assignment does the same at line 196 (next row) | `CustomString<char> a{"ab"}; a.Append('c', 0); CustomString<char> b{a}; b.Append('c', 0);` leaves `b` holding "a" and a terminator with Size() 2 | the cursor one past the terminator | high, not executed | AsWritten.CopyAsWritten, AsWritten.CopyThenAppendLosesUnit | CustomString.Copy, AsWritten.CopyThenAppendKeepsUnits |
| CustomString/CustomString/CustomString.h:196 | copy assignment to another object also leaves the cursor on the terminator (`m_pHead + size`) | `CustomString<char> a{"ab"}; a.Append('c', 0); CustomString<char> b; b = a; b.Append('c', 0);` leaves `b` holding "a" and a terminator with Size() 2 | the cursor one past the terminator | high, not executed | AsWritten.CopyAssignAsWritten, AsWritten.CopyAssignThenAppendLosesUnit | CustomString.CopyAssign, AsWritten.CopyAssignThenAppendKeepsUnits |
| CustomString/CustomString/CustomString.h:177-188 | copy assignment releases its own buffer and nulls its pointers before reading `other.Capacity()`, so on self-assignment it reads capacity 0 and allocates nothing, while Size() is copied | `CustomString<char> a{"ab"}; a = a;` leaves Size() 2 with no buffer | `a = a` leaves `a` unchanged | high, not executed | AsWritten.CopyAssignAsWritten, AsWritten.SelfCopyAssignLosesBuffer | CustomString.CopyAssign, AsWritten.SelfCopyAssignKeepsString |

=== FILE: as_written.dfy ===
/** Members whose code, as written, leaves defined behaviour or breaks the
    representation invariant on some inputs. Each is modelled here exactly as
    written, with the point where it goes wrong made visible as a Fault, next
    to an input that shows it. The rest of the model uses the corrected
    members of CustomString and Queries. */
module AsWritten {
  import opened Units
  import opened Outcomes
  import opened Growth
  import opened RawString
  import opened CustomString
  import opened Queries

  // The concrete lemmas below name each string literal as a parameter fixed by a precondition.

  /** A string built from "ab": Size() 2, Capacity() 3, cursor after the terminator. */
  lemma Ab(ab: seq<char>)
    requires ab == "ab\0"
    ensures Terminated(ab) && RawLength(ab) == 3
    ensures var s := FromRaw(ab);
      s.size == 2 && Capacity(s) == 3 && s.cursor == 3 && s.buf == ab
  {
    NulIndexUnique(ab, 2);
    var s := FromRaw(ab);
    assert s.buf[..2] == ab[..2];
    assert s.buf == s.buf[..2] + [s.buf[2]];
  }

  // ---------------------------------------------------------------------
  // Assign(c, count)

  /** Assign(c, count) as written: the reallocation asks for count + 1
      units, whatever the string already holds, and the writes then start
      at Size(). */
  function AssignFillAsWritten(s: Str, c: char, count: nat): (r: Outcome<Str>)
    requires Valid(s) && s.size + count + 1 <= MAX_SIZE
    ensures r.Undefined? <==>
      (|s.buf| == 0 || s.cursor + count >= |s.buf|) && NewCapacity(Capacity(s), count + 1) < s.size + count + 1
    ensures r.Done? ==> Valid(r.value) && Content(r.value) == Content(s) + Repeat(c, count)
  {
    var t := Reserve(s, count, count + 1);
    assert WriteStart(t) == s.size;
    if WriteStart(t) + count + 1 <= |t.buf| then Done(PutUnits(t, Repeat(c, count)))
    else Undefined(WriteOutOfBounds)
  }

  /** On an empty string (the fill constructor uses it only so) the code as
      written agrees with AssignFill. */
  lemma AssignFillAsWrittenOnEmptyString(s: Str, c: char, count: nat)
    requires Valid(s) && s.size == 0 && count + 1 <= MAX_SIZE
    ensures AssignFillAsWritten(s, c, count) == Done(AssignFill(s, c, count))
  {
    assert s.size + count + 1 == count + 1;
  }

  /** `CustomString<char> s{"ab"}; s.Assign('x', 10);` reallocates to 11
      units and then writes 2 + 10 + 1 of them. */
  lemma AssignFillOverflows(ab: seq<char>)
    requires ab == "ab\0"
    ensures Terminated(ab)
    ensures AssignFillAsWritten(FromRaw(ab), 'x', 10) == Undefined(WriteOutOfBounds)
  {
    Ab(ab);
    assert NewCapacity(3, 11) == 11;
  }

  // ---------------------------------------------------------------------
  // Assign(pStr, count) and Assign(pStr)

  /** Assign(pStr, count) as written. The raw string is the region `mem`
      seen from offset `at`, so that pStr[count - 1] with count == 0 can
      reach the unit before it. The copy starts at the cursor, after the
      current terminator rather than on it, and the reallocation asks only
      for the units being copied. Size() grows by the copied count minus one
      in size_t arithmetic. */
  function AssignRawAsWritten(s: Str, mem: seq<char>, at: nat, count: nat): (r: Outcome<Str>)
    requires Valid(s) && at <= |mem| && s.size + count + 1 <= MAX_SIZE
    ensures s.size > 0 && r.Done? ==> !Valid(r.value)
  {
    var copied := CopiedCount(mem, at, count);
    if copied.Undefined? then Undefined(copied.fault)
    else CopyCounted(s, mem[at..at + copied.value])
  }

  /** The reallocation and memcpy of Assign(pStr, count) once the number of
      units to copy is known: the buffer is grown to hold just `units`. */
  function CopyCounted(s: Str, units: seq<char>): (r: Outcome<Str>)
    requires Valid(s) && s.size + |units| <= MAX_SIZE
    ensures r.Undefined? <==>
      var t := Reserve(s, |units|, |units|); t.cursor + |units| > Capacity(t) || t.cursor + |units| == 0
    ensures s.size > 0 && r.Done? ==> !Valid(r.value)
  {
    var n := |units|;
    var t := Reserve(s, n, n);
    if t.cursor + n > |t.buf| || t.cursor + n == 0 then Undefined(WriteOutOfBounds)
    else Done(CopyAtCursor(t, units))
  }

  /** `if (pStr[count - 1] != '\0') ++count;` and the memcpy's reads: how
      many units are copied, or the read that leaves the raw string. */
  function CopiedCount(mem: seq<char>, at: nat, count: nat): (r: Outcome<nat>)
    requires at <= |mem|
    ensures r.Undefined? <==>
      at + count == 0 || at + count > |mem| || (mem[at + count - 1] != NUL && at + count == |mem|)
    ensures r.Done? ==> at + r.value <= |mem|
    ensures r.Done? ==> r.value == if mem[at + count - 1] != NUL then count + 1 else count
    ensures r.Undefined? ==> r.fault == ReadOutOfBounds
  {
    if at + count == 0 || at + count - 1 >= |mem| then Undefined(ReadOutOfBounds)
    else
      var n := if mem[at + count - 1] != NUL then count + 1 else count;
      if at + n > |mem| then Undefined(ReadOutOfBounds) else Done(n)
  }

  /** The memcpy of Assign(pStr, count) as written: `units` land at the
      cursor, the unit before the new cursor is overwritten by the
      terminator, and Size() grows by one less than the number of units. */
  function CopyAtCursor(t: Str, units: seq<char>): (r: Str)
    requires Valid(t) && 1 <= t.cursor + |units| <= |t.buf|
    requires t.size + |units| <= MAX_SIZE
    ensures r.cursor == t.cursor + |units|
    ensures |units| > 0 ==> r.size == t.size + |units| - 1
    ensures t.size > 0 ==> !Valid(r)
  {
    var copied := Splice(t.buf, t.cursor, units);
    SizeStep(t.size + |units|);
    Str(copied[t.cursor + |units| - 1 := NUL], (t.size + |units| + MAX_SIZE) % (MAX_SIZE + 1), t.cursor + |units|)
  }

  /** `m_Size += count - 1` in size_t arithmetic. */
  lemma SizeStep(x: nat)
    requires x <= MAX_SIZE + 1
    ensures (x + MAX_SIZE) % (MAX_SIZE + 1) == if x == 0 then MAX_SIZE else x - 1
  {
  }

  /** Copying `units` and one more unit, then overwriting that unit with the
      terminator, leaves `units` and a terminator. */
  lemma CopyThenTerminate(buf: seq<char>, units: seq<char>, last: char)
    requires |units| + 1 <= |buf|
    ensures Splice(buf, 0, units + [last])[|units| := NUL] == Splice(buf, 0, units + [NUL])
  {
  }

  /** From an empty cursor the copy is the same as writing all but the last unit and a terminator. */
  lemma CopyAtCursorFromStart(t: Str, units: seq<char>, kept: seq<char>)
    requires Valid(t) && t.cursor == 0 && 1 <= |units| <= |t.buf| && |units| <= MAX_SIZE
    requires kept == units[..|units| - 1]
    ensures CopyAtCursor(t, units) == PutUnits(t, kept)
  {
    var k := |units| - 1;
    assert units == kept + [units[k]];
    CopyThenTerminate(t.buf, kept, units[k]);
  }

  /** Once CopiedCount has settled on `n`, the rest of Assign(pStr, count) is CopyCounted. */
  lemma AssignRawAsWrittenCounted(s: Str, mem: seq<char>, at: nat, count: nat, n: nat)
    requires Valid(s) && at <= |mem| && s.size + count + 1 <= MAX_SIZE
    requires 1 <= count && at + count <= |mem|
    requires mem[at + count - 1] != NUL ==> at + count < |mem|
    requires n == if mem[at + count - 1] != NUL then count + 1 else count
    ensures at + n <= |mem|
    ensures AssignRawAsWritten(s, mem, at, count) == CopyCounted(s, mem[at..at + n])
  {
    assert CopiedCount(mem, at, count) == Done(n);
  }

  /** From an empty cursor the reallocation always makes room and the copy
      writes all but the last unit and a terminator. */
  lemma CopyCountedFromStart(s: Str, units: seq<char>, kept: seq<char>)
    requires Valid(s) && s.cursor == 0 && 1 <= |units| <= MAX_SIZE
    requires kept == units[..|units| - 1]
    ensures CopyCounted(s, units) == Done(PutUnits(Reserve(s, |units|, |units|), kept))
  {
    var t := Reserve(s, |units|, |units|);
    CopyAtCursorFromStart(t, units, kept);
  }

  /** AssignRaw on an empty string: the terminator-extended count of units lands at the start. */
  lemma AssignRawOnEmptyString(s: Str, p: seq<char>, count: nat, n: nat)
    requires Valid(s) && s.size == 0 && 1 <= count <= |p|
    requires p[count - 1] != NUL ==> count < |p|
    requires count + 1 <= MAX_SIZE
    requires n == if p[count - 1] != NUL then count + 1 else count
    ensures AssignRaw(s, p, count) == PutUnits(Reserve(s, n, n), p[..n - 1])
  {
    assert s.size + n == n;
  }

  /** The copy of the `n` units at `at` is AssignRaw of the raw string that starts there. */
  lemma CopyCountedIsAssignRaw(s: Str, mem: seq<char>, at: nat, count: nat, n: nat)
    requires Valid(s) && s.cursor == 0
    requires 1 <= count && at + count <= |mem|
    requires mem[at + count - 1] != NUL ==> at + count < |mem|
    requires count + 1 <= MAX_SIZE
    requires n == if mem[at + count - 1] != NUL then count + 1 else count
    ensures CopyCounted(s, mem[at..at + n]) == Done(AssignRaw(s, mem[at..], count))
  {
    var p := mem[at..];
    assert p[count - 1] == mem[at + count - 1];
    var u := mem[at..at + n];
    assert u[..n - 1] == p[..n - 1];
    CopyCountedFromStart(s, u, p[..n - 1]);
    AssignRawOnEmptyString(s, p, count, n);
  }

  /** On a string that has written nothing yet (the constructors and
      Substring use it only so) the code as written agrees with AssignRaw. */
  lemma AssignRawAsWrittenOnFreshString(s: Str, mem: seq<char>, at: nat, count: nat)
    requires Valid(s) && s.cursor == 0
    requires 1 <= count && at + count <= |mem|
    requires mem[at + count - 1] != NUL ==> at + count < |mem|
    requires count + 1 <= MAX_SIZE
    ensures AssignRawAsWritten(s, mem, at, count) == Done(AssignRaw(s, mem[at..], count))
  {
    var n := if mem[at + count - 1] != NUL then count + 1 else count;
    AssignRawAsWrittenCounted(s, mem, at, count, n);
    CopyCountedIsAssignRaw(s, mem, at, count, n);
  }

  /** `CustomString<char> s{"ab"}; s.Assign("cd");` copies three units to
      offset 3 of a buffer Reallocate(3) has grown to only four units. */
  lemma AssignRawOverflows(ab: seq<char>, cd: seq<char>)
    requires ab == "ab\0" && cd == "cd\0"
    ensures Terminated(ab)
    ensures AssignRawAsWritten(FromRaw(ab), cd, 0, 3) == Undefined(WriteOutOfBounds)
  {
    Ab(ab);
    assert NewCapacity(3, 3) == 4;
  }

  // ---------------------------------------------------------------------
  // Substring(start, count)

  /** Substring as written: the accepted units are handed to Assign(pStr,
      count) of a value-initialised (`{}`) string, even when there are none. */
  function SubstringAsWritten(s: Str, start: nat, count: nat): (r: Outcome<Str>)
    requires Valid(s) && start < s.size
    ensures SubstringLength(s, start, count) == 0 && start == 0 ==> r == Undefined(ReadOutOfBounds)
  {
    AssignRawAsWritten(Empty, s.buf, start, SubstringLength(s, start, count))
  }

  /** Whenever at least one unit is accepted the code as written agrees with Substring. */
  lemma SubstringAsWrittenAgrees(s: Str, start: nat, count: nat)
    requires Valid(s) && start < s.size && SubstringLength(s, start, count) > 0
    ensures SubstringAsWritten(s, start, count) == Done(Substring(s, start, count))
  {
    var k := SubstringLength(s, start, count);
    AssignRawAsWrittenOnFreshString(Empty, s.buf, start, k);
  }

  /** `CustomString<char>{"Hello"}.Substring(0, 0)` reads the unit before the buffer. */
  lemma SubstringEmptyReadsBefore(hello: seq<char>)
    requires hello == "Hello\0"
    ensures Terminated(hello) && RawLength(hello) == 6
    ensures SubstringAsWritten(FromRaw(hello), 0, 0) == Undefined(ReadOutOfBounds)
  {
    NulIndexUnique(hello, 5);
  }

  // ---------------------------------------------------------------------
  // operator==

  /** operator==(const CustomString&) as written: when exactly one side has
      never allocated, the scan dereferences its null buffer. */
  function EqualsAsWritten(a: Str, b: Str): (r: Outcome<bool>)
    requires Valid(a) && Valid(b)
    ensures r.Undefined? <==> a.size == b.size && (Capacity(a) == 0) != (Capacity(b) == 0)
    ensures r.Done? ==> (r.value <==> SameText(a, b))
  {
    if a.size != b.size then Done(false)
    else if |a.buf| == 0 && |b.buf| == 0 then Done(true)
    else if |a.buf| == 0 || |b.buf| == 0 then Undefined(NullDereference)
    else Done(SameText(a, b))
  }

  /** `CustomString<char>{'L', 0} == CustomString<char>{}` dereferences null,
      where both are the empty string. */
  lemma EqualsNullDereference()
    ensures EqualsAsWritten(Fill('L', 0), Empty) == Undefined(NullDereference)
    ensures SameText(Fill('L', 0), Empty)
  {
    var s := Fill('L', 0);
    NulIndexUnique(s.buf, 0);
  }

  /** operator==(const T*) as written: a string that never allocated has
      Size() 0, so against "" the scan starts and dereferences its null buffer. */
  function EqualsRawAsWritten(s: Str, p: seq<char>): (r: Outcome<bool>)
    requires Valid(s) && Terminated(p)
    ensures r.Undefined? <==> Capacity(s) == 0 && RawLength(p) == 1
    ensures r.Done? ==> (r.value <==> SameAsRaw(s, p))
  {
    if s.size + 1 != RawLength(p) then Done(false)
    else if |s.buf| == 0 then Undefined(NullDereference)
    else Done(SameAsRaw(s, p))
  }

  /** `CustomString<char>{} == ""` dereferences null, where both are empty. */
  lemma EqualsRawNullDereference()
    ensures Terminated("\0")
    ensures EqualsRawAsWritten(Empty, "\0") == Undefined(NullDereference)
    ensures SameAsRaw(Empty, "\0")
  {
    NulIndexUnique("\0", 0);
  }

  // ---------------------------------------------------------------------
  // copy construction and copy assignment

  /** The copy constructor as written: the cursor is left on the terminator
      (m_pHead + Size()) instead of after it. */
  function CopyAsWritten(src: Str): (r: Str)
    requires Valid(src)
    ensures Sound(r)
    ensures Capacity(r) == Capacity(src) && r.size == src.size && Content(r) == Content(src)
    ensures src.size > 0 ==> !Valid(r) && WriteStart(r) == src.size - 1
  {
    if |src.buf| > 0 then Str(src.buf[..src.size] + Repeat(NUL, |src.buf| - src.size), src.size, src.size)
    else Str([], src.size, 0)
  }

  /** `CustomString<char> a{"ab"}; a.Append('c', 0); CustomString<char> b{a};
      b.Append('c', 0);` leaves `b` holding "a" and a terminator: the append
      needs no reallocation and backs up over the last unit. */
  lemma CopyThenAppendLosesUnit(ab: seq<char>)
    requires ab == "ab\0"
    ensures Terminated(ab)
    ensures var a := Append(FromRaw(ab), 'c', 0);
      && Content(a) == "ab"
      && var b := Append(CopyAsWritten(a), 'c', 0);
      b.size == 2 && b.buf[..b.size] == "a\0"
  {
    Ab(ab);
    var s := FromRaw(ab);
    var a := Append(s, 'c', 0);
    assert NewCapacity(3, 3) == 4;
    assert Capacity(a) == 4 && a.size == 2 && Content(a) == "ab";
    var c := CopyAsWritten(a);
    assert c.buf[..2] == "ab";
    var b := Append(c, 'c', 0);
    assert b == PutUnits(c, []);
    assert b.buf[0] == 'a' && b.buf[1] == NUL;
  }

  /** With the cursor after the terminator the same appends keep every unit. */
  lemma CopyThenAppendKeepsUnits(a: Str, c: char, count: nat)
    requires Valid(a) && a.size + count + 1 <= MAX_SIZE
    ensures Content(Append(Copy(a), c, count)) == Content(a) + Repeat(c, count)
  {
  }

  /** operator=(const CustomString&) as written. `same` says both operands
      are one object: its buffer is released before Capacity() is read from
      it, so `a = a` keeps Size() but loses the buffer. */
  function CopyAssignAsWritten(dst: Str, src: Str, same: bool): (r: Str)
    requires Valid(dst) && Valid(src)
    requires same ==> dst == src
    ensures same ==> Capacity(r) == 0 && r.size == src.size
    ensures same && src.size > 0 ==> !Sound(r)
    ensures !same ==> r == CopyAsWritten(src)
  {
    if same then Str([], src.size, 0) else CopyAsWritten(src)
  }

  /** Copy assignment to another object places the cursor like the copy
      constructor (`m_pCurrentEnd = m_pHead + size`): after
      `CustomString<char> b; b = a;` with `a` as in CopyThenAppendLosesUnit,
      `b.Append('c', 0)` leaves `b` holding "a" and a terminator. */
  lemma CopyAssignThenAppendLosesUnit(ab: seq<char>, dst: Str)
    requires ab == "ab\0" && Valid(dst)
    ensures Terminated(ab)
    ensures var a := Append(FromRaw(ab), 'c', 0);
      && Content(a) == "ab"
      && var b := Append(CopyAssignAsWritten(dst, a, false), 'c', 0);
      b.size == 2 && b.buf[..b.size] == "a\0"
  {
    CopyThenAppendLosesUnit(ab);
  }

  /** With the corrected copy assignment the same appends keep every unit. */
  lemma CopyAssignThenAppendKeepsUnits(dst: Str, a: Str, c: char, count: nat)
    requires Valid(dst) && Valid(a) && a.size + count + 1 <= MAX_SIZE
    ensures Content(Append(CopyAssign(dst, a, false), c, count)) == Content(a) + Repeat(c, count)
  {
    CopyThenAppendKeepsUnits(a, c, count);
  }

  /** `CustomString<char> a{"ab"}; a = a;` leaves Size() 2 with no buffer,
      so Data() is null and operator[] dereferences it. */
  lemma SelfCopyAssignLosesBuffer(ab: seq<char>)
    requires ab == "ab\0"
    ensures Terminated(ab)
    ensures var a := FromRaw(ab);
      var r := CopyAssignAsWritten(a, a, true);
      r.size == 2 && Capacity(r) == 0
  {
    Ab(ab);
  }

  /** Corrected, `a = a` leaves the string as it was. */
  lemma SelfCopyAssignKeepsString(a: Str)
    requires Valid(a)
    ensures CopyAssign(a, a, true) == a
  {
  }
}

=== FILE: custom_string.dfy ===
/** The state of a CustomString<char> and every member that builds or changes it. */
module CustomString {
  import opened Units
  import opened Growth
  import opened RawString

  /** One CustomString<char>. `buf` is the allocation m_pHead..m_pTail, so its
      length is Capacity(); `size` is m_Size; `cursor` is m_pCurrentEnd as an
      offset from m_pHead. The null state, before anything is allocated and
      after a move, is the empty buffer: a null m_pCurrentEnd is a capacity
      of zero. */
  datatype Str = Str(buf: seq<char>, size: nat, cursor: nat)

  /** The value-initialised (`{}`) and the moved-from state. */
  const Empty: Str := Str([], 0, 0)

  /** Capacity(): m_pTail - m_pHead. */
  function Capacity(s: Str): nat {
    |s.buf|
  }

  /** The memory facts the reallocation path relies on: the buffer fits a
      size_t, the cursor points into it, and the first Size() units and the
      unit after them lie inside it. */
  predicate Sound(s: Str) {
    && |s.buf| <= MAX_SIZE
    && s.cursor <= |s.buf|
    && (s.size == 0 || s.size < |s.buf|)
  }

  /** The representation invariant: the cursor sits one past the written
      terminator, or at the start when nothing has been written yet, and an
      allocated buffer holds a terminator at offset Size(). */
  predicate Valid(s: Str) {
    && Sound(s)
    && (s.cursor == 0 ==> s.size == 0)
    && (s.cursor > 0 ==> s.cursor == s.size + 1)
    && (|s.buf| > 0 ==> s.buf[s.size] == NUL)
  }

  /** The Size() units the string holds. */
  function Content(s: Str): seq<char>
    requires Sound(s)
  {
    s.buf[..s.size]
  }

  /** What a scan from Data() reads before it meets a terminator. */
  function Text(s: Str): seq<char> {
    UpToNul(s.buf)
  }

  /** A scan of a valid string stops inside its content; when the content
      holds no terminator it reads exactly the content. */
  lemma TextOfValid(s: Str)
    requires Valid(s)
    ensures Text(s) == UpToNul(Content(s))
    ensures NUL !in Content(s) ==> Text(s) == Content(s)
  {
    NulIndexPrefix(s.buf, s.size);
    if NUL !in Content(s) {
      NulIndexUnique(Content(s), s.size);
    }
  }

  /** memcpy of `data` into `buf` at offset `at`. */
  function Splice(buf: seq<char>, at: nat, data: seq<char>): (r: seq<char>)
    requires at + |data| <= |buf|
    ensures |r| == |buf|
    ensures r[..at] == buf[..at]
    ensures r[at..at + |data|] == data
    ensures r[at + |data|..] == buf[at + |data|..]
  {
    buf[..at] + data + buf[at + |data|..]
  }

  /** `if (m_pCurrentEnd > m_pHead) --m_pCurrentEnd;`: where the next write
      starts, on top of the terminator when one has been written. */
  function WriteStart(s: Str): nat {
    if s.cursor > 0 then s.cursor - 1 else 0
  }

  /** The common tail of Assign(c, count), Append and both operator+=: back up
      over the terminator, write `units`, write a new terminator, and add
      |units| to Size(). */
  function PutUnits(t: Str, units: seq<char>): (r: Str)
    requires Sound(t)
    requires WriteStart(t) + |units| + 1 <= |t.buf|
    ensures Capacity(r) == Capacity(t) && r.size == t.size + |units|
    ensures Valid(t) ==> Valid(r) && Content(r) == Content(t) + units
    ensures Valid(t) ==> r.cursor == r.size + 1
  {
    var at := WriteStart(t);
    var r := Str(Splice(t.buf, at, units + [NUL]), t.size + |units|, at + |units| + 1);
    assert Valid(t) ==> r.buf[..r.size] == t.buf[..t.size] + units by {
      if Valid(t) {
        assert r.buf[..at + |units| + 1] == t.buf[..at] + units + [NUL];
        assert r.buf[..r.size] == (t.buf[..at] + units + [NUL])[..r.size];
      }
    }
    r
  }

  /** Reallocate(min): a zero-filled buffer of NewCapacity(min) units, the
      first Size() units copied into it, and a terminator after them when
      there are any. */
  function Reallocate(s: Str, min: nat): (r: Str)
    requires Sound(s) && min <= MAX_SIZE
    ensures Valid(r)
    ensures Capacity(r) == NewCapacity(Capacity(s), min)
    ensures Capacity(r) >= Capacity(s) && Capacity(r) >= min
    ensures r.size == s.size && Content(r) == Content(s)
    ensures r.cursor == if s.size > 0 then s.size + 1 else 0
    ensures forall i | s.size <= i < Capacity(r) :: r.buf[i] == NUL
  {
    var newCap := NewCapacity(|s.buf|, min);
    var grown := s.buf[..s.size] + Repeat(NUL, newCap - s.size);
    if s.size > 0 then Str(grown[s.size := NUL], s.size, s.size + 1)
    else Str(grown, 0, 0)
  }

  /** The test every mutator makes before writing: when nothing is allocated
      yet, or the cursor moved on by `reach` units would meet the end of the
      buffer, Reallocate(min); otherwise the string stays as it is. */
  function Reserve(s: Str, reach: nat, min: nat): (r: Str)
    requires Sound(s) && min <= MAX_SIZE
    ensures Sound(r) && r.size == s.size && Capacity(r) >= Capacity(s)
    ensures Valid(s) ==> Valid(r) && Content(r) == Content(s)
    ensures || (r == s && |s.buf| > 0 && s.cursor + reach < |s.buf|)
            || (Valid(r) && Capacity(r) >= min && r.cursor == if s.size > 0 then s.size + 1 else 0)
    ensures |s.buf| > 0 && s.cursor + reach < |s.buf| ==> r == s
    ensures !(|s.buf| > 0 && s.cursor + reach < |s.buf|) ==> r == Reallocate(s, min)
  {
    if |s.buf| == 0 || s.cursor + reach >= |s.buf| then Reallocate(s, min) else s
  }

  /** Assign(c, count). Like the source it carries on after the current
      content: the old terminator is overwritten and Size() grows by `count`
      rather than being reset. Unlike the source it sizes the reallocation
      for the units already held (AsWritten.AssignFillAsWritten keeps the
      source's sizing, which overflows the buffer). */
  function AssignFill(s: Str, c: char, count: nat): (r: Str)
    requires Valid(s) && s.size + count + 1 <= MAX_SIZE
    ensures Valid(r) && r.cursor == r.size + 1
    ensures r.size == s.size + count
    ensures Content(r) == Content(s) + Repeat(c, count)
    ensures Capacity(r) >= Capacity(s)
  {
    PutUnits(Reserve(s, count, s.size + count + 1), Repeat(c, count))
  }

  /** Append(c, count): grow to hold Size() + count + 1 units when needed,
      then write `count` copies of `c` over the terminator and terminate again. */
  function Append(s: Str, c: char, count: nat): (r: Str)
    requires Sound(s) && s.size + count + 1 <= MAX_SIZE
    ensures Valid(s) ==> Valid(r) && r.cursor == r.size + 1
    ensures r.size == s.size + count
    ensures Valid(s) ==> Content(r) == Content(s) + Repeat(c, count)
    ensures Valid(s) ==> Capacity(r) >= Capacity(s) && Capacity(r) > r.size
  {
    PutUnits(Reserve(s, count + 1, s.size + count + 1), Repeat(c, count))
  }

  /** operator+=(const T*): copy the raw string, terminator included, over
      the current terminator. Size() grows by the counted length minus one. */
  function AppendRaw(s: Str, p: seq<char>): (r: Str)
    requires Valid(s) && Terminated(p) && s.size + RawLength(p) <= MAX_SIZE
    ensures Valid(r) && r.cursor == r.size + 1
    ensures r.size == s.size + RawLength(p) - 1
    ensures Content(r) == Content(s) + UpToNul(p)
    ensures Capacity(r) >= Capacity(s)
  {
    var n := RawLength(p);
    var t := Reserve(s, n, s.size + n);
    // the copied units p[..n] are UpToNul(p) followed by its terminator
    PutUnits(t, p[..n - 1])
  }

  /** operator+=(const CustomString&): copy the other string's Size() units
      over the terminator and terminate again; the other string is only read. */
  function AppendString(s: Str, other: Str): (r: Str)
    requires Valid(s) && Valid(other) && s.size + other.size + 1 <= MAX_SIZE
    ensures Valid(r) && r.cursor == r.size + 1
    ensures r.size == s.size + other.size
    ensures Content(r) == Content(s) + Content(other)
    ensures Capacity(r) >= Capacity(s)
  {
    var n := other.size;
    PutUnits(Reserve(s, n + 1, s.size + n + 1), Content(other))
  }

  /** Assign(pStr, count). When pStr[count - 1] is not a terminator one more
      unit is copied, and the last copied unit is always replaced by a
      terminator, so the `count` units arrive either way. Like the other
      mutators it writes over the current terminator and sizes the
      reallocation for the units already held; the source does neither
      (AsWritten.AssignRawAsWritten). */
  function AssignRaw(s: Str, p: seq<char>, count: nat): (r: Str)
    requires Valid(s) && 1 <= count <= |p|
    requires p[count - 1] != NUL ==> count < |p|
    requires s.size + count + 1 <= MAX_SIZE
    ensures Valid(r) && r.cursor == r.size + 1
    ensures p[count - 1] == NUL ==> r.size == s.size + count - 1 && Content(r) == Content(s) + p[..count - 1]
    ensures p[count - 1] != NUL ==> r.size == s.size + count && Content(r) == Content(s) + p[..count]
    ensures Capacity(r) >= Capacity(s)
  {
    var n := if p[count - 1] != NUL then count + 1 else count;
    var t := Reserve(s, n, s.size + n);
    assert WriteStart(t) + n <= |t.buf|;
    // memcpy of n units whose last one is then overwritten by the terminator
    var copied := p[..n - 1];
    assert copied == if p[count - 1] == NUL then p[..count - 1] else p[..count];
    PutUnits(t, copied)
  }

  /** Assign(pStr): Assign(pStr, CountRawString(pStr)). */
  function AssignRawAll(s: Str, p: seq<char>): (r: Str)
    requires Valid(s) && Terminated(p) && s.size + RawLength(p) + 1 <= MAX_SIZE
    ensures Valid(r) && r.cursor == r.size + 1
    ensures r.size == s.size + RawLength(p) - 1
    ensures Content(r) == Content(s) + UpToNul(p)
  {
    AssignRaw(s, p, RawLength(p))
  }

  /** Neither corrected Assign resets the string. Assign(pStr) is exactly
      operator+=(pStr); Assign(c, count) leaves the same Size() and content as
      Append(c, count), though its reallocation test reaches one unit less
      (`m_pCurrentEnd + count` against `m_pCurrentEnd + count + 1`), so the
      capacities may differ. */
  lemma AssignActsAsAppend(s: Str, c: char, count: nat, p: seq<char>)
    requires Valid(s) && s.size + count + 1 <= MAX_SIZE
    requires Terminated(p) && s.size + RawLength(p) + 1 <= MAX_SIZE
    ensures AssignFill(s, c, count).size == Append(s, c, count).size
    ensures Content(AssignFill(s, c, count)) == Content(Append(s, c, count))
    ensures AssignRawAll(s, p) == AppendRaw(s, p)
  {
    AssignFillMatchesAppend(s, c, count);
    AssignRawAllIsAppendRaw(s, p);
  }

  /** Assign(c, count) and Append(c, count) put the same units after the held ones. */
  lemma AssignFillMatchesAppend(s: Str, c: char, count: nat)
    requires Valid(s) && s.size + count + 1 <= MAX_SIZE
    ensures AssignFill(s, c, count).size == Append(s, c, count).size
    ensures Content(AssignFill(s, c, count)) == Content(Append(s, c, count))
  {
  }

  /** Assign(pStr) and operator+=(pStr) reach the same state: the counted
      length ends on the terminator, so Assign copies no extra unit. */
  lemma AssignRawAllIsAppendRaw(s: Str, p: seq<char>)
    requires Valid(s) && Terminated(p) && s.size + RawLength(p) + 1 <= MAX_SIZE
    ensures AssignRawAll(s, p) == AppendRaw(s, p)
  {
    var n := RawLength(p);
    assert p[n - 1] == NUL;
  }

  /** CustomString(c, count): the default state followed by Assign(c, count). */
  function Fill(c: char, count: nat): (r: Str)
    requires count + 1 <= MAX_SIZE
    ensures Valid(r) && r.cursor == r.size + 1
    ensures r.size == count && Capacity(r) == count + 1
    ensures Content(r) == Repeat(c, count)
    ensures r.buf[count] == NUL
  {
    AssignFill(Empty, c, count)
  }

  /** explicit CustomString(const T*): the default state followed by Assign(pStr). */
  function FromRaw(p: seq<char>): (r: Str)
    requires Terminated(p) && RawLength(p) + 1 <= MAX_SIZE
    ensures Valid(r) && r.cursor == r.size + 1
    ensures r.size == RawLength(p) - 1 && Capacity(r) == RawLength(p)
    ensures Content(r) == UpToNul(p)
    ensures r.buf[r.size] == NUL
  {
    AssignRawAll(Empty, p)
  }

  /** CustomString(const CustomString&), with the cursor placed after the
      terminator: a new buffer of the source's capacity (not a tight fit)
      holding its Size() units. The source places the cursor on the
      terminator instead (AsWritten.CopyAsWritten). */
  function Copy(src: Str): (r: Str)
    requires Valid(src)
    ensures Valid(r)
    ensures Capacity(r) == Capacity(src) && r.size == src.size
    ensures Content(r) == Content(src)
    ensures Text(r) == Text(src)
  {
    var r :=
      if |src.buf| > 0 then
        Str(src.buf[..src.size] + Repeat(NUL, |src.buf| - src.size), src.size, if src.size > 0 then src.size + 1 else 0)
      else Str([], src.size, 0);
    TextOfValid(src);
    TextOfValid(r);
    r
  }

  /** operator=(const CustomString&). `same` says that both operands are one
      object (`a = a`), which leaves it as it was; the source releases its
      own buffer first (AsWritten.CopyAssignAsWritten). Otherwise the target's
      buffer is released and it becomes a copy of the source, with the cursor
      after the terminator as in Copy; the source sets it on the terminator
      (`m_pHead + size`) here too. */
  function CopyAssign(dst: Str, src: Str, same: bool): (r: Str)
    requires Valid(dst) && Valid(src)
    requires same ==> dst == src
    ensures Valid(r)
    ensures Capacity(r) == Capacity(src) && r.size == src.size
    ensures Content(r) == Content(src)
  {
    if same then dst else Copy(src)
  }

  /** CustomString(CustomString&&): the new object takes over buffer, Size()
      and cursor unchanged, and the source is left in the null state. */
  function MoveConstruct(src: Str): (r: (Str, Str))
    requires Valid(src)
    ensures Valid(r.0) && Valid(r.1)
    ensures r.0 == src
    ensures Capacity(r.1) == 0 && r.1.size == 0
  {
    (src, Empty)
  }

  /** operator=(CustomString&&). `same` says both operands are one object
      (`a = std::move(a)`): the buffer is released, the null fields are moved
      onto themselves and then reset, so the string ends up in the null
      state. Otherwise the target's own buffer is released, it takes over the
      source's, and the source is left in the null state. The pair is the
      target and then the source after the assignment. */
  function MoveAssign(dst: Str, src: Str, same: bool): (r: (Str, Str))
    requires Valid(dst) && Valid(src)
    requires same ==> dst == src
    ensures Valid(r.0) && Valid(r.1)
    ensures !same ==> r.0 == src
    ensures same ==> r.0 == Empty
    ensures Capacity(r.1) == 0 && r.1.size == 0
  {
    if same then (Empty, Empty) else (src, Empty)
  }
}

=== FILE: growth.dfy ===
/** The capacity growth policy of Reallocate. */
module Growth {

  /** MaxSize(): the largest unit count a 64-bit size_t can hold. */
  const MAX_SIZE: nat := 0xFFFF_FFFF_FFFF_FFFF

  function Min(a: int, b: int): int {
    if a <= b then a else b
  }

  function Max(a: int, b: int): int {
    if a >= b then a else b
  }

  /** CalculateNewCapacity: grow by half the old capacity, take exactly `min`
      when that is not enough, and stop at MaxSize() when growing by half
      would pass it. Both arguments are size_t values. */
  function NewCapacity(oldCap: nat, min: nat): (r: nat)
    requires oldCap <= MAX_SIZE && min <= MAX_SIZE
    ensures oldCap <= r <= MAX_SIZE
    ensures min <= r
  {
    if oldCap > MAX_SIZE - oldCap / 2 then MAX_SIZE
    else if oldCap + oldCap / 2 < min then min
    else oldCap + oldCap / 2
  }

  /** The policy in one formula: the larger of `min` and 1.5 times the old
      capacity, clamped at MaxSize(). */
  lemma NewCapacityIsClampedGrowth(oldCap: nat, min: nat)
    requires oldCap <= MAX_SIZE && min <= MAX_SIZE
    ensures NewCapacity(oldCap, min) == Min(MAX_SIZE, Max(min, oldCap + oldCap / 2))
  {
  }

  /** Whenever the result is more than 1.5 times the old capacity it is an exact fit. */
  lemma NewCapacityExactFit(oldCap: nat, min: nat)
    requires oldCap <= MAX_SIZE && min <= MAX_SIZE
    ensures NewCapacity(oldCap, min) > oldCap + oldCap / 2 ==> NewCapacity(oldCap, min) == min
  {
  }

  /** Asking for more never yields less. */
  lemma NewCapacityMonotone(oldCap: nat, min1: nat, min2: nat)
    requires oldCap <= MAX_SIZE && min1 <= min2 <= MAX_SIZE
    ensures NewCapacity(oldCap, min1) <= NewCapacity(oldCap, min2)
  {
  }

  /** Capacity after `k` growth steps that each ask for one more unit than the current capacity. */
  function GrowSteps(cap: nat, k: nat): (r: nat)
    requires cap < MAX_SIZE
    ensures cap <= r <= MAX_SIZE
    decreases k
  {
    if k == 0 then cap
    else
      var next := NewCapacity(cap, cap + 1);
      if next == MAX_SIZE then MAX_SIZE else GrowSteps(next, k - 1)
  }

  /** Growth speeds up with the capacity: every step that does not reach
      MaxSize() adds at least half of the starting capacity. */
  lemma {:induction false} GrowStepsLowerBound(cap: nat, k: nat)
    requires cap < MAX_SIZE
    ensures GrowSteps(cap, k) >= Min(MAX_SIZE, cap + k * (cap / 2))
    decreases k
  {
    if k > 0 {
      var next := NewCapacity(cap, cap + 1);
      if next < MAX_SIZE {
        GrowStepsLowerBound(next, k - 1);
        StepBound(cap, next, k);
      }
    }
  }

  /** Growth never stalls, even from capacity 0 or 1: every step that does
      not reach MaxSize() adds at least one unit. */
  lemma {:induction false} GrowStepsNeverStalls(cap: nat, k: nat)
    requires cap < MAX_SIZE
    ensures GrowSteps(cap, k) >= Min(MAX_SIZE, cap + k)
    decreases k
  {
    if k > 0 {
      var next := NewCapacity(cap, cap + 1);
      if next < MAX_SIZE {
        GrowStepsNeverStalls(next, k - 1);
      }
    }
  }

  /** One step that grows `cap` to `next` (at least by half) keeps the bound
      of the remaining k - 1 steps at least as large as the bound of k steps. */
  lemma StepBound(cap: nat, next: nat, k: nat)
    requires k > 0 && next >= cap + cap / 2
    ensures cap + k * (cap / 2) <= next + (k - 1) * (next / 2)
  {
    var h, h' := cap / 2, next / 2;
    ScaleMonotone(k - 1, h, h');
    assert k * h == h + (k - 1) * h;
  }

  lemma ScaleMonotone(a: nat, b: nat, c: nat)
    requires b <= c
    ensures a * b <= a * c
  {
  }
}

=== FILE: outcomes.dfy ===
/** Result shapes shared by the model. */
module Outcomes {

  /** A value that may be absent; `Data()` of a string that never allocated is `None`. */
  datatype Option<+T> = None | Some(value: T)

  /** What the C++ code does when it leaves defined behaviour. */
  datatype Fault =
    | NullDereference   // reads through the null buffer of a string that never allocated
    | ReadOutOfBounds   // reads a unit outside the region it was given
    | WriteOutOfBounds  // writes a unit outside the allocated buffer

  /** The outcome of running a member as written: a value, or the point where
      the code stops having defined behaviour. */
  datatype Outcome<+T> = Done(value: T) | Undefined(fault: Fault)
}

=== FILE: queries.dfy ===
/** The members that read a CustomString<char>, and the in-place case conversions. */
module Queries {
  import opened Units
  import opened Outcomes
  import opened Growth
  import opened RawString
  import opened CustomString

  /** Data(): the buffer, or None for a string that has never allocated. */
  function Data(s: Str): (r: Option<seq<char>>)
    requires Valid(s)
    ensures r.None? <==> Capacity(s) == 0
    ensures r.Some? ==> |r.value| > s.size && r.value[..s.size] == Content(s) && r.value[s.size] == NUL
  {
    if |s.buf| == 0 then None else Some(s.buf)
  }

  /** What operator==(const CustomString&) decides: the same Size(), and the
      same units up to the first terminator. */
  predicate SameText(a: Str, b: Str) {
    a.size == b.size && Text(a) == Text(b)
  }

  /** What operator==(const T*) decides: Size() + 1 equals the counted
      length of the raw string, and the same units up to the first terminator. */
  predicate SameAsRaw(s: Str, p: seq<char>)
    requires Terminated(p)
  {
    s.size + 1 == RawLength(p) && Text(s) == UpToNul(p)
  }

  /** The scan both operator== share stops at `i`, where the two sides first
      differ or first hold a terminator. */
  lemma ScanVerdict(x: seq<char>, y: seq<char>, i: nat)
    requires i < |x| && i < |y|
    requires forall j | 0 <= j < i :: x[j] == y[j] && x[j] != NUL
    requires x[i] == NUL || y[i] == NUL || x[i] != y[i]
    ensures UpToNul(x) == UpToNul(y) <==> x[i] == y[i]
  {
    if x[i] == y[i] {
      NulIndexUnique(x, i);
      NulIndexUnique(y, i);
      assert x[..i] == y[..i];
    } else if x[i] == NUL {
      NulIndexUnique(x, i);
      assert NulIndex(y) > i;
      assert |UpToNul(x)| != |UpToNul(y)|;
    } else if y[i] == NUL {
      NulIndexUnique(y, i);
      assert NulIndex(x) > i;
      assert |UpToNul(x)| != |UpToNul(y)|;
    } else {
      assert NulIndex(x) > i && NulIndex(y) > i;
      assert UpToNul(x)[i] != UpToNul(y)[i];
    }
  }

  /** operator==(const CustomString&). The scan stops at the first
      terminator of either side; a string that never allocated reads as the
      empty text (the source dereferences its null buffer instead when the
      other side has allocated, AsWritten.EqualsAsWritten). */
  method Equals(a: Str, b: Str) returns (eq: bool)
    requires Valid(a) && Valid(b)
    ensures eq <==> SameText(a, b)
  {
    if a.size != b.size {
      return false;
    }
    if |a.buf| == 0 || |b.buf| == 0 {
      // both are empty; the allocated side, if any, starts with its terminator
      NulIndexUnique(a.buf, 0);
      NulIndexUnique(b.buf, 0);
      return true;
    }
    var i := 0;
    while a.buf[i] != NUL && b.buf[i] != NUL
      invariant i <= a.size
      invariant forall j | 0 <= j < i :: a.buf[j] == b.buf[j] && a.buf[j] != NUL
      decreases a.size - i
    {
      if a.buf[i] != b.buf[i] {
        ScanVerdict(a.buf, b.buf, i);
        return false;
      }
      i := i + 1;
    }
    ScanVerdict(a.buf, b.buf, i);
    eq := a.buf[i] == b.buf[i];
  }

  /** operator==(const T*). Sizes are compared through CountRawString first;
      a string that never allocated reads as the empty text (the source
      dereferences its null buffer instead, AsWritten.EqualsRawAsWritten). */
  method EqualsRaw(s: Str, p: seq<char>) returns (eq: bool)
    requires Valid(s) && Terminated(p)
    ensures eq <==> SameAsRaw(s, p)
  {
    var n := CountRawString(p);
    if s.size + 1 != n {
      return false;
    }
    if |s.buf| == 0 {
      // Size() is 0, so the raw string starts with its terminator
      NulIndexUnique(s.buf, 0);
      return true;
    }
    var i := 0;
    while s.buf[i] != NUL && p[i] != NUL
      invariant i <= s.size
      invariant forall j | 0 <= j < i :: s.buf[j] == p[j] && s.buf[j] != NUL
      decreases s.size - i
    {
      if s.buf[i] != p[i] {
        ScanVerdict(s.buf, p, i);
        return false;
      }
      i := i + 1;
    }
    ScanVerdict(s.buf, p, i);
    eq := s.buf[i] == p[i];
  }

  /** operator== is reflexive. */
  lemma SameTextReflexive(a: Str)
    ensures SameText(a, a)
  {
  }

  /** operator== is symmetric. */
  lemma SameTextSymmetric(a: Str, b: Str)
    ensures SameText(a, b) <==> SameText(b, a)
  {
  }

  /** For strings without an embedded terminator operator== is equality of contents. */
  lemma SameTextIsContentEquality(a: Str, b: Str)
    requires Valid(a) && Valid(b)
    requires NUL !in Content(a) && NUL !in Content(b)
    ensures SameText(a, b) <==> Content(a) == Content(b)
  {
    TextOfValid(a);
    TextOfValid(b);
  }

  /** A string built from a raw string compares equal to it. */
  lemma FromRawEqualsSource(p: seq<char>)
    requires Terminated(p) && RawLength(p) + 1 <= MAX_SIZE
    ensures SameAsRaw(FromRaw(p), p)
  {
    var s := FromRaw(p);
    TextOfValid(s);
    assert NUL !in Content(s);
  }

  /** A copy compares equal to its source. */
  lemma CopyEqualsSource(s: Str)
    requires Valid(s)
    ensures SameText(Copy(s), s)
  {
  }

  /** operator[] (const): the unit at `index`, which must be below Size(). */
  function At(s: Str, index: nat): char
    requires Valid(s) && index < s.size
  {
    s.buf[index]
  }

  /** A write through the reference operator[] returns: only that unit changes. */
  function Put(s: Str, index: nat, c: char): (r: Str)
    requires Valid(s) && index < s.size
    ensures Valid(r)
    ensures r.size == s.size && Capacity(r) == Capacity(s)
    ensures Content(r) == Content(s)[index := c]
  {
    s.(buf := s.buf[index := c])
  }

  /** Reading back through operator[] sees the write and nothing else changed. */
  lemma PutThenAt(s: Str, index: nat, c: char, j: nat)
    requires Valid(s) && index < s.size && j < s.size
    ensures At(Put(s, index, c), j) == if j == index then c else At(s, j)
  {
  }

  /** ToUpper (k == Upper) and ToLower (k == Lower): convert every unit
      before the first terminator in place. */
  function Recase(s: Str, k: Case): (r: Str)
    requires Valid(s)
    ensures Valid(r)
    ensures r.size == s.size && r.cursor == s.cursor && Capacity(r) == Capacity(s)
    ensures |Text(r)| == |Text(s)|
    ensures forall i | 0 <= i < |Text(s)| :: Text(r)[i] == Convert(k, Text(s)[i])
    ensures forall i | |Text(s)| <= i < Capacity(s) :: r.buf[i] == s.buf[i]
  {
    Str(ConvertUntilNul(k, s.buf), s.size, s.cursor)
  }

  /** ToUpper(): 'a'..'z' become 'A'..'Z', up to the first terminator. */
  function ToUpper(s: Str): (r: Str)
    requires Valid(s)
    ensures Valid(r)
    ensures r.size == s.size && r.cursor == s.cursor && Capacity(r) == Capacity(s)
    ensures |Text(r)| == |Text(s)|
    ensures forall i | 0 <= i < |Text(s)| :: Text(r)[i] == Convert(Upper, Text(s)[i])
    ensures forall i | 0 <= i < |Text(s)| :: !IsLowerLetter(Text(r)[i])
    ensures forall i | |Text(s)| <= i < Capacity(s) :: r.buf[i] == s.buf[i]
  {
    Recase(s, Upper)
  }

  /** ToLower(): 'A'..'Z' become 'a'..'z', up to the first terminator. */
  function ToLower(s: Str): (r: Str)
    requires Valid(s)
    ensures Valid(r)
    ensures r.size == s.size && r.cursor == s.cursor && Capacity(r) == Capacity(s)
    ensures |Text(r)| == |Text(s)|
    ensures forall i | 0 <= i < |Text(s)| :: Text(r)[i] == Convert(Lower, Text(s)[i])
    ensures forall i | 0 <= i < |Text(s)| :: !IsUpperLetter(Text(r)[i])
    ensures forall i | |Text(s)| <= i < Capacity(s) :: r.buf[i] == s.buf[i]
  {
    Recase(s, Lower)
  }

  /** Only letters change: every unit that is not an ASCII letter keeps its
      value, and ToUpper changes a unit exactly when it is a lower-case letter. */
  lemma ToUpperChangesOnlyLowerLetters(s: Str, i: nat)
    requires Valid(s) && i < Capacity(s)
    ensures ToUpper(s).buf[i] != s.buf[i] <==> i < |Text(s)| && IsLowerLetter(s.buf[i])
  {
    if i < |Text(s)| {
      assert Text(s)[i] == s.buf[i];
      assert Text(ToUpper(s))[i] == ToUpper(s).buf[i];
    }
  }

  /** The same for ToLower: it changes a unit exactly when it is an upper-case letter. */
  lemma ToLowerChangesOnlyUpperLetters(s: Str, i: nat)
    requires Valid(s) && i < Capacity(s)
    ensures ToLower(s).buf[i] != s.buf[i] <==> i < |Text(s)| && IsUpperLetter(s.buf[i])
  {
    if i < |Text(s)| {
      assert Text(s)[i] == s.buf[i];
      assert Text(ToLower(s))[i] == ToLower(s).buf[i];
    }
  }

  /** ToUpper is idempotent. */
  lemma ToUpperIdempotent(s: Str)
    requires Valid(s)
    ensures ToUpper(ToUpper(s)) == ToUpper(s)
  {
    ConvertUntilNulIdempotent(Upper, s.buf);
  }

  /** Case is forgotten: lowering an upper-cased string is lowering it directly. */
  lemma ToLowerAfterToUpper(s: Str)
    requires Valid(s)
    ensures ToLower(ToUpper(s)) == ToLower(s)
  {
    LowerAfterUpperUntilNul(s.buf);
  }

  /** For a string without an embedded terminator ToUpper converts the whole content. */
  lemma ToUpperContent(s: Str)
    requires Valid(s) && NUL !in Content(s)
    ensures NUL !in Content(ToUpper(s))
    ensures forall i | 0 <= i < s.size :: Content(ToUpper(s))[i] == Convert(Upper, Content(s)[i])
  {
    TextOfValid(s);
    TextOfValid(ToUpper(s));
    assert |Text(ToUpper(s))| == s.size;
    assert Content(ToUpper(s)) == Text(ToUpper(s));
  }

  /** How many units Substring's loop accepts: at most `count`, never past
      Size(), and never past an embedded terminator. */
  function SubstringLength(s: Str, start: nat, count: nat): (k: nat)
    requires Valid(s) && start < s.size
    ensures k <= count && start + k <= s.size
    ensures forall i | start <= i < start + k :: s.buf[i] != NUL
    ensures k == count || start + k == s.size || s.buf[start + k] == NUL
  {
    var k := Min(Min(count, s.size - start), NulIndex(s.buf[start..]));
    assert forall i | start <= i < start + k :: s.buf[i] == s.buf[start..][i - start];
    k
  }

  /** Substring(start, count): a new string holding the accepted units; the
      receiver is only read. When no unit is accepted the result is the empty
      string (the source instead reads before the region it copies from,
      AsWritten.SubstringAsWritten). */
  function Substring(s: Str, start: nat, count: nat): (r: Str)
    requires Valid(s) && start < s.size
    ensures Valid(r)
    ensures r.size == SubstringLength(s, start, count)
    ensures Content(r) == s.buf[start..start + r.size]
    ensures NUL !in Content(r)
  {
    var k := SubstringLength(s, start, count);
    if k == 0 then Empty
    else
      var p := s.buf[start..];
      assert p[..k] == s.buf[start..start + k];
      AssignRaw(Empty, p, k)
  }

  /** Substring(0) of a string without an embedded terminator is an equal copy. */
  lemma SubstringWhole(s: Str)
    requires Valid(s) && 0 < s.size && NUL !in Content(s)
    ensures Content(Substring(s, 0, MAX_SIZE)) == Content(s)
    ensures SameText(Substring(s, 0, MAX_SIZE), s)
  {
    var r := Substring(s, 0, MAX_SIZE);
    assert Content(r) == Content(s);
    TextOfValid(r);
    TextOfValid(s);
  }
}

=== FILE: raw_string.dfy ===
/** Raw strings: `const T*` arguments, modelled as the units from the pointer
    onward. A null pointer cannot be written down in this model, so the
    `assert(pStr != nullptr)` checks hold by construction. */
module RawString {
  import opened Units

  /** The region holds a terminator, so every scan of it stops inside it. */
  predicate Terminated(p: seq<char>) {
    NulIndex(p) < |p|
  }

  /** The length CountRawString reports: units up to and including the first terminator. */
  function RawLength(p: seq<char>): nat
    requires Terminated(p)
  {
    NulIndex(p) + 1
  }

  /** CountRawString: walk to the first terminator and count it too. */
  method CountRawString(p: seq<char>) returns (n: nat)
    requires Terminated(p)
    ensures 1 <= n <= |p|
    ensures p[n - 1] == NUL
    ensures forall i | 0 <= i < n - 1 :: p[i] != NUL
    ensures n == RawLength(p)
  {
    var counter := 0;
    while p[counter] != NUL
      invariant counter <= NulIndex(p)
      invariant forall i | 0 <= i < counter :: p[i] != NUL
      decreases NulIndex(p) - counter
    {
      counter := counter + 1;
    }
    n := counter + 1;
  }
}

=== FILE: scenarios.dfy ===
/** The behaviour the repository's own test cases check, stated on the model
    for the same inputs. Pointer identity (two strings never share a
    buffer) has no counterpart in a value model and is not stated. */
module Scenarios {
  import opened Units
  import opened Outcomes
  import opened Growth
  import opened RawString
  import opened CustomString
  import opened Queries

  /** The raw string literal "text": its units and a terminator. */
  function Raw(text: seq<char>): seq<char> {
    text + [NUL]
  }

  /** IsStringNullTerminated of the test file: the unit at offset Size() is the terminator. */
  predicate NullTerminated(s: Str) {
    s.size < |s.buf| && s.buf[s.size] == NUL
  }

  /** A literal without an embedded terminator is a raw string whose text is itself. */
  lemma RawLiteral(text: seq<char>)
    requires NUL !in text
    ensures Terminated(Raw(text)) && RawLength(Raw(text)) == |text| + 1
    ensures UpToNul(Raw(text)) == text
  {
    NulIndexOfTerminated(text, []);
    assert Raw(text) == text + [NUL] + [];
  }

  /** Constructing from a literal: exactly the literal's units, then a terminator. */
  lemma FromLiteral(text: seq<char>)
    requires NUL !in text && |text| + 2 <= MAX_SIZE
    ensures Terminated(Raw(text)) && RawLength(Raw(text)) + 1 <= MAX_SIZE
    ensures var s := FromRaw(Raw(text));
      && s.size == |text| && Capacity(s) == |text| + 1
      && s.buf == Raw(text) && Content(s) == text && Text(s) == text
  {
    RawLiteral(text);
    var s := FromRaw(Raw(text));
    assert s.buf == s.buf[..s.size] + [s.buf[s.size]];
    TextOfValid(s);
  }

  /** operator==(const T*) against a literal decides Size() and text. */
  lemma SameAsLiteral(s: Str, text: seq<char>)
    requires Valid(s) && NUL !in text
    ensures Terminated(Raw(text))
    ensures SameAsRaw(s, Raw(text)) <==> s.size == |text| && Text(s) == text
  {
    RawLiteral(text);
  }

  /** Converting a literal unit by unit as `expected` lists. */
  lemma ConvertLiteral(k: Case, text: seq<char>, expected: seq<char>)
    requires NUL !in text && |expected| == |text|
    requires forall i | 0 <= i < |text| :: Convert(k, text[i]) == expected[i]
    ensures NUL !in expected
    ensures ConvertUntilNul(k, Raw(text)) == Raw(expected)
  {
    RawLiteral(text);
    var r := ConvertUntilNul(k, Raw(text));
    assert forall i | 0 <= i < |text| :: r[i] == Convert(k, Raw(text)[i]);
    assert forall i | 0 <= i < |text| :: expected[i] != NUL;
  }

  /** A string whose buffer holds a literal and its terminator has that literal as its text. */
  lemma HoldsLiteral(r: Str, text: seq<char>)
    requires Valid(r) && NUL !in text && r.buf == Raw(text)
    ensures r.size == |text| && Text(r) == text
    ensures Terminated(Raw(text)) && SameAsRaw(r, Raw(text))
  {
    RawLiteral(text);
    assert r.buf[|text|] == NUL;
    SameAsLiteral(r, text);
  }

  /** Converting the string built from `text` gives the string built from `expected`, unit for unit. */
  lemma RecaseLiteral(k: Case, text: seq<char>, expected: seq<char>)
    requires NUL !in text && |text| + 2 <= MAX_SIZE && |expected| == |text|
    requires forall i | 0 <= i < |text| :: Convert(k, text[i]) == expected[i]
    ensures Terminated(Raw(text)) && RawLength(Raw(text)) + 1 <= MAX_SIZE
    ensures NUL !in expected && Terminated(Raw(expected))
    ensures var r := Recase(FromRaw(Raw(text)), k);
      r.size == |text| && Text(r) == expected && SameAsRaw(r, Raw(expected))
  {
    FromLiteral(text);
    var s := FromRaw(Raw(text));
    assert s.buf == Raw(text);
    ConvertLiteral(k, text, expected);
    var r := Recase(s, k);
    assert r == Str(ConvertUntilNul(k, s.buf), s.size, s.cursor);
    assert r.buf == Raw(expected);
    HoldsLiteral(r, expected);
  }

  /** The raw strings the comparisons use hold no terminator before their end. */
  lemma ComparedLiterals(hw: seq<char>, underscore: seq<char>, longer: seq<char>)
    requires hw == "Hello World!" && underscore == "Hello_World!"
    requires longer == "Hello World, This is Rhidian!"
    ensures NUL !in hw && NUL !in underscore && NUL !in longer
    ensures |hw| == |underscore| && hw != underscore && |longer| != |hw|
  {
    assert hw[5] != underscore[5];
  }

  /** ToUpper maps "Hello World!" unit for unit to "HELLO WORLD!". */
  lemma UpperOfHelloWorld(hw: seq<char>, upper: seq<char>)
    requires hw == "Hello World!" && upper == "HELLO WORLD!"
    ensures NUL !in hw && |upper| == |hw|
    ensures forall i | 0 <= i < |hw| :: Convert(Upper, hw[i]) == upper[i]
  {
  }

  /** ToLower maps "Hello World!" unit for unit to "hello world!". */
  lemma LowerOfHelloWorld(hw: seq<char>, lower: seq<char>)
    requires hw == "Hello World!" && lower == "hello world!"
    ensures NUL !in hw && |lower| == |hw|
    ensures forall i | 0 <= i < |hw| :: Convert(Lower, hw[i]) == lower[i]
  {
  }

  /** "THIS_IS_A_TEST!" holds no lower-case letter, so ToUpper keeps every unit. */
  lemma UpperOfUpperCase(test: seq<char>)
    requires test == "THIS_IS_A_TEST!"
    ensures NUL !in test
    ensures forall i | 0 <= i < |test| :: Convert(Upper, test[i]) == test[i]
  {
  }

  /** "this_is_a_test!" holds no upper-case letter, so ToLower keeps every unit. */
  lemma LowerOfLowerCase(test: seq<char>)
    requires test == "this_is_a_test!"
    ensures NUL !in test
    ensures forall i | 0 <= i < |test| :: Convert(Lower, test[i]) == test[i]
  {
  }

  /** `String string{}`: Size() 0, Capacity() 0, Data() null. */
  lemma DefaultConstructed()
    ensures Valid(Empty)
    ensures Empty.size == 0 && Capacity(Empty) == 0 && Data(Empty) == None
  {
  }

  /** `String string{'L', 7}`: seven units, equal to "LLLLLLL", 'L' at both
      ends and a terminator after them. */
  lemma FillSeven(l7: seq<char>)
    requires l7 == "LLLLLLL"
    ensures NUL !in l7 && Terminated(Raw(l7))
    ensures var s := Fill('L', 7);
      && s.size == 7 && Capacity(s) >= 7 && Data(s).Some?
      && SameAsRaw(s, Raw(l7))
      && At(s, 0) == 'L' && At(s, 6) == 'L'
      && s.buf[s.size] == NUL
  {
    var s := Fill('L', 7);
    assert Content(s) == l7;
    TextOfValid(s);
    SameAsLiteral(s, l7);
  }

  /** `String str{"Hello World!"}`: twelve units and a terminator after them. */
  lemma FromHelloWorld(hw: seq<char>)
    requires hw == "Hello World!"
    ensures NUL !in hw && Terminated(Raw(hw)) && RawLength(Raw(hw)) + 1 <= MAX_SIZE
    ensures var s := FromRaw(Raw(hw));
      s.size == 12 && Capacity(s) >= 12 && Data(s).Some? && s.buf[s.size] == NUL
  {
    FromLiteral(hw);
  }

  /** `String string{str}`: the same Size() and Capacity(), equal to the
      original and to "Hello World!", both terminated. */
  lemma CopyOfHelloWorld(hw: seq<char>)
    requires hw == "Hello World!"
    ensures NUL !in hw && Terminated(Raw(hw)) && RawLength(Raw(hw)) + 1 <= MAX_SIZE
    ensures var str := FromRaw(Raw(hw));
      var s := Copy(str);
      && s.size == str.size && Capacity(s) == Capacity(str)
      && SameText(s, str) && SameAsRaw(s, Raw(hw))
      && str.buf[str.size] == NUL && s.buf[s.size] == NUL
  {
    FromLiteral(hw);
    var str := FromRaw(Raw(hw));
    CopyEqualsSource(str);
    SameAsLiteral(Copy(str), hw);
  }

  /** Comparing "Hello World!" against raw strings: equal to itself only. */
  lemma CompareAgainstRaw(hw: seq<char>, underscore: seq<char>, longer: seq<char>)
    requires hw == "Hello World!" && underscore == "Hello_World!"
    requires longer == "Hello World, This is Rhidian!"
    ensures NUL !in hw && Terminated(Raw(hw)) && RawLength(Raw(hw)) + 1 <= MAX_SIZE
    ensures NUL !in underscore && NUL !in longer
    ensures Terminated(Raw(underscore)) && Terminated(Raw(longer)) && Terminated(Raw([]))
    ensures var str := FromRaw(Raw(hw));
      && SameAsRaw(str, Raw(hw))
      && !SameAsRaw(str, Raw(underscore))
      && !SameAsRaw(str, Raw(longer))
      && !SameAsRaw(str, Raw([]))
  {
    ComparedLiterals(hw, underscore, longer);
    FromLiteral(hw);
    var str := FromRaw(Raw(hw));
    SameAsLiteral(str, hw);
    SameAsLiteral(str, underscore);
    SameAsLiteral(str, longer);
    SameAsLiteral(str, []);
  }

  /** Comparing "Hello World!", "Hello!" and the default string with each
      other: each equals itself and differs from the other two. */
  lemma CompareAgainstOther(hw: seq<char>, hello: seq<char>)
    requires hw == "Hello World!" && hello == "Hello!"
    ensures NUL !in hw && Terminated(Raw(hw)) && RawLength(Raw(hw)) + 1 <= MAX_SIZE
    ensures NUL !in hello && Terminated(Raw(hello)) && RawLength(Raw(hello)) + 1 <= MAX_SIZE
    ensures var str := FromRaw(Raw(hw));
      var s := FromRaw(Raw(hello));
      && SameText(str, str) && !SameText(str, s) && !SameText(str, Empty)
      && SameText(s, s) && !SameText(s, str) && !SameText(s, Empty)
      && SameText(Empty, Empty) && !SameText(Empty, str) && !SameText(Empty, s)
  {
    FromLiteral(hw);
    FromLiteral(hello);
  }

  /** `str.ToUpper()` on "Hello World!" gives "HELLO WORLD!", and so does a
      copy of the result; "THIS_IS_A_TEST!" is left as it is. */
  lemma ToUpperOfHelloWorld(hw: seq<char>, upper: seq<char>, test: seq<char>)
    requires hw == "Hello World!" && upper == "HELLO WORLD!" && test == "THIS_IS_A_TEST!"
    ensures NUL !in hw && Terminated(Raw(hw)) && RawLength(Raw(hw)) + 1 <= MAX_SIZE
    ensures NUL !in test && Terminated(Raw(test)) && RawLength(Raw(test)) + 1 <= MAX_SIZE
    ensures NUL !in upper && Terminated(Raw(upper))
    ensures var str := ToUpper(FromRaw(Raw(hw)));
      var s := Copy(str);
      && SameAsRaw(str, Raw(upper)) && SameAsRaw(s, Raw(upper))
      && s.size == str.size && Capacity(s) == Capacity(str)
      && SameAsRaw(ToUpper(FromRaw(Raw(test))), Raw(test))
      && NullTerminated(str) && NullTerminated(s)
      && NullTerminated(ToUpper(FromRaw(Raw(test))))
  {
    UpperOfHelloWorld(hw, upper);
    RecaseLiteral(Upper, hw, upper);
    SameAsLiteral(Copy(ToUpper(FromRaw(Raw(hw)))), upper);
    UpperOfUpperCase(test);
    RecaseLiteral(Upper, test, test);
  }

  /** `str.ToLower()` on "Hello World!" gives "hello world!", and so does a
      copy of the result; "this_is_a_test!" is left as it is. */
  lemma ToLowerOfHelloWorld(hw: seq<char>, lower: seq<char>, test: seq<char>)
    requires hw == "Hello World!" && lower == "hello world!" && test == "this_is_a_test!"
    ensures NUL !in hw && Terminated(Raw(hw)) && RawLength(Raw(hw)) + 1 <= MAX_SIZE
    ensures NUL !in test && Terminated(Raw(test)) && RawLength(Raw(test)) + 1 <= MAX_SIZE
    ensures NUL !in lower && Terminated(Raw(lower))
    ensures var str := ToLower(FromRaw(Raw(hw)));
      var s := Copy(str);
      && SameAsRaw(str, Raw(lower)) && SameAsRaw(s, Raw(lower))
      && s.size == str.size && Capacity(s) == Capacity(str)
      && SameAsRaw(ToLower(FromRaw(Raw(test))), Raw(test))
      && NullTerminated(str) && NullTerminated(s)
      && NullTerminated(ToLower(FromRaw(Raw(test))))
  {
    LowerOfHelloWorld(hw, lower);
    RecaseLiteral(Lower, hw, lower);
    SameAsLiteral(Copy(ToLower(FromRaw(Raw(hw)))), lower);
    LowerOfLowerCase(test);
    RecaseLiteral(Lower, test, test);
  }

  /** `Append('x', 5)` on "Hello World!" gives "Hello World!xxxxx", Size() 17. */
  lemma AppendToHelloWorld(hw: seq<char>, appended: seq<char>)
    requires hw == "Hello World!" && appended == "Hello World!xxxxx"
    ensures NUL !in hw && Terminated(Raw(hw)) && RawLength(Raw(hw)) + 1 <= MAX_SIZE
    ensures NUL !in appended && Terminated(Raw(appended))
    ensures var s := Append(FromRaw(Raw(hw)), 'x', 5);
      && s.size == 17 && Content(s) == appended
      && SameAsRaw(s, Raw(appended)) && s.buf[s.size] == NUL
  {
    FromLiteral(hw);
    var s := Append(FromRaw(Raw(hw)), 'x', 5);
    assert Content(s) == hw + Repeat('x', 5);
    assert Content(s) == appended;
    assert NUL !in appended by {
      assert forall i | 0 <= i < |appended| :: appended[i] != NUL;
    }
    TextOfValid(s);
    SameAsLiteral(s, appended);
  }

  /** In "Hello World!" the loop of Substring(6) accepts the six units of "World!". */
  lemma WorldOfHelloWorld(str: Str, hw: seq<char>, world: seq<char>)
    requires hw == "Hello World!" && world == "World!"
    requires Valid(str) && str.size == 12 && str.buf == Raw(hw)
    ensures SubstringLength(str, 6, MAX_SIZE) == 6
    ensures str.buf[6..12] == world
  {
    assert forall i | 6 <= i < 12 :: str.buf[i] != NUL;
  }

  /** `Substring(6)` of "Hello World!" is "World!": the default count takes everything up to Size(). */
  lemma SubstringOfHelloWorld(hw: seq<char>, world: seq<char>)
    requires hw == "Hello World!" && world == "World!"
    ensures NUL !in hw && Terminated(Raw(hw)) && RawLength(Raw(hw)) + 1 <= MAX_SIZE
    ensures NUL !in world && Terminated(Raw(world))
    ensures var str := FromRaw(Raw(hw));
      && 6 < str.size
      && var s := Substring(str, 6, MAX_SIZE);
      && s.size == 6 && Content(s) == world && SameAsRaw(s, Raw(world))
  {
    FromLiteral(hw);
    var str := FromRaw(Raw(hw));
    WorldOfHelloWorld(str, hw, world);
    var s := Substring(str, 6, MAX_SIZE);
    assert Content(s) == world;
    assert NUL !in world;
    TextOfValid(s);
    SameAsLiteral(s, world);
  }
}

=== FILE: units.dfy ===
/** Code units of CustomString<char>.

    The template parameter T is instantiated at `char`: a unit is a Dafny
    `char`, and only two things about a unit carry meaning to the string,
    whether it is the terminator T() and whether it is an ASCII letter.
 */
module Units {

  /** T(): the zero unit that ends every raw string. */
  const NUL: char := 0 as char

  /** `n` copies of `c`, the run written by the fill constructor, Assign(c, n) and Append(c, n). */
  function Repeat(c: char, n: nat): (r: seq<char>)
    ensures |r| == n
    ensures forall i | 0 <= i < n :: r[i] == c
  {
    seq(n, _ => c)
  }

  /** Index of the first terminator in `xs`, or |xs| when there is none:
      how far every scan of the source (CountRawString, operator==,
      ToUpper, Substring) walks before it stops. */
  function NulIndex(xs: seq<char>): (n: nat)
    ensures n <= |xs|
    ensures forall i | 0 <= i < n :: xs[i] != NUL
    ensures n < |xs| ==> xs[n] == NUL
  {
    if |xs| == 0 || xs[0] == NUL then 0
    else
      var m := NulIndex(xs[1..]);
      assert forall i | 1 <= i < m + 1 :: xs[i] == xs[1..][i - 1];
      1 + m
  }

  /** The units a reader of the raw string sees: everything before the first terminator. */
  function UpToNul(xs: seq<char>): (r: seq<char>)
    ensures |r| == NulIndex(xs) && r == xs[..|r|]
    ensures forall i | 0 <= i < |r| :: r[i] != NUL
  {
    xs[..NulIndex(xs)]
  }

  /** The three facts NulIndex promises determine it. */
  lemma NulIndexUnique(xs: seq<char>, m: nat)
    requires m <= |xs|
    requires forall i | 0 <= i < m :: xs[i] != NUL
    requires m < |xs| ==> xs[m] == NUL
    ensures NulIndex(xs) == m
  {
  }

  /** A terminator-free prefix followed by a terminator: the scan stops exactly there. */
  lemma NulIndexOfTerminated(text: seq<char>, rest: seq<char>)
    requires forall i | 0 <= i < |text| :: text[i] != NUL
    ensures NulIndex(text + [NUL] + rest) == |text|
    ensures UpToNul(text + [NUL] + rest) == text
  {
    var xs := text + [NUL] + rest;
    assert forall i | 0 <= i < |text| :: xs[i] == text[i];
    NulIndexUnique(xs, |text|);
    assert xs[..|text|] == text;
  }

  /** Cutting a sequence after position k cuts the scan there too. */
  lemma NulIndexPrefix(xs: seq<char>, k: nat)
    requires k <= |xs|
    ensures NulIndex(xs[..k]) == if NulIndex(xs) < k then NulIndex(xs) else k
  {
    var ys := xs[..k];
    var n := NulIndex(xs);
    if n < k {
      NulIndexUnique(ys, n);
    } else {
      NulIndexUnique(ys, k);
    }
  }

  /** Which of the two in-place conversions. */
  datatype Case = Upper | Lower

  predicate IsLowerLetter(c: char) {
    'a' <= c <= 'z'
  }

  predicate IsUpperLetter(c: char) {
    'A' <= c <= 'Z'
  }

  /** One unit of ToUpper or ToLower: an ASCII letter of the other case moves
      by 'a' - 'A'; every other unit is left alone. */
  function Convert(k: Case, c: char): (r: char)
    ensures k == Upper ==> !IsLowerLetter(r)
    ensures k == Lower ==> !IsUpperLetter(r)
    ensures !IsLowerLetter(c) && !IsUpperLetter(c) ==> r == c
    ensures (r == NUL) == (c == NUL)
  {
    match k
    case Upper => if IsLowerLetter(c) then (c as int - ('a' as int - 'A' as int)) as char else c
    case Lower => if IsUpperLetter(c) then (c as int + ('a' as int - 'A' as int)) as char else c
  }

  /** Converting a letter to one case and back to the other gives the letter back. */
  lemma ConvertRoundTrip(c: char)
    ensures IsLowerLetter(c) ==> Convert(Lower, Convert(Upper, c)) == c
    ensures IsUpperLetter(c) ==> Convert(Upper, Convert(Lower, c)) == c
  {
  }

  /** The conversion loop of ToUpper/ToLower: every unit before the first
      terminator is converted, the terminator and everything after it is
      left as it was. */
  function ConvertUntilNul(k: Case, xs: seq<char>): (r: seq<char>)
    ensures |r| == |xs|
    ensures NulIndex(r) == NulIndex(xs)
    ensures forall i | 0 <= i < NulIndex(xs) :: r[i] == Convert(k, xs[i])
    ensures forall i | NulIndex(xs) <= i < |xs| :: r[i] == xs[i]
  {
    if |xs| == 0 || xs[0] == NUL then xs
    else
      var tail := ConvertUntilNul(k, xs[1..]);
      var r := [Convert(k, xs[0])] + tail;
      assert r[1..] == tail;
      assert forall i | 1 <= i < |xs| :: r[i] == tail[i - 1] && xs[i] == xs[1..][i - 1];
      r
  }

  /** Converting twice to the same case changes nothing more. */
  lemma {:induction false} ConvertUntilNulIdempotent(k: Case, xs: seq<char>)
    ensures ConvertUntilNul(k, ConvertUntilNul(k, xs)) == ConvertUntilNul(k, xs)
    decreases |xs|
  {
    if |xs| > 0 && xs[0] != NUL {
      ConvertUntilNulIdempotent(k, xs[1..]);
      var u := ConvertUntilNul(k, xs);
      assert u[1..] == ConvertUntilNul(k, xs[1..]);
    }
  }

  /** Lowering after upper-casing is the same as lowering directly. */
  lemma {:induction false} LowerAfterUpperUntilNul(xs: seq<char>)
    ensures ConvertUntilNul(Lower, ConvertUntilNul(Upper, xs)) == ConvertUntilNul(Lower, xs)
    decreases |xs|
  {
    if |xs| > 0 && xs[0] != NUL {
      LowerAfterUpperUntilNul(xs[1..]);
      var u := ConvertUntilNul(Upper, xs);
      assert u[1..] == ConvertUntilNul(Upper, xs[1..]);
    }
  }
}
